=== FILE: README.md ===
# Random FizzBuzz — a Dafny model

The system looks for a random-number seed whose pseudo-random "fizz / buzz /
fizz buzz / number" sequence agrees with the real FizzBuzz sequence for as
long as possible. Its core is small:

- `MatchesUpToWith` counts how many leading elements of a finite sequence
  agree with a reference enumerable. The reference may be an unbounded lazy
  iterator.
- `Classify` applies the matcher to every entry of a dictionary.
- `FizzBuzz()` is the canonical FizzBuzz iterator.
- The test class adds the unbounded `AllNumbers()` reference, the values its
  tests expect, and two brute-force loops. The loops scan seeds (and
  permutation indices), keep a running record, and log every strict
  improvement.

Modules:

- `Int32` (`int32.dfy`) — wrap-around of the unchecked C# `int` counter.
- `Decimal` (`decimal.dfy`) — `int.ToString()` as decimal text, with a parser
  and round-trip lemmas.
- `Enumerables` (`enumerables.dfy`) — C# `yield` iterators as a start state
  plus a step function (`Generator`), with `ElementAt` and `Take`. Also the
  `Reference` a sequence is matched against: a materialized list (LINQ
  `ElementAt` past its end throws `ArgumentOutOfRangeException`) or a lazy
  stream that never ends.
- `SequencesExtensions` (`sequences_extensions.dfy`) — `MatchesUpToWith`,
  `Classify`, `FizzBuzz()`, and a corrected FizzBuzz iterator.
- `Records` (`records.dfy`) — the running record and the log of new records,
  defined over any visit order, with their theory.
- `RandomFizzBuzzTest` (`random_fizz_buzz_test.dfy`) — `AllNumbers()`, the
  test vectors, and the two search loops as methods.

Exceptions become a `Result` value: `Failure(ArgumentOutOfRange)` stands for
the exception LINQ raises. An iterator's unbounded output is a function from
index to element. The match length of a seeded sequence against the
reference FizzBuzz is a parameter (`lengthOf`), because the seeded generators
are not part of this model.

## Model

| member | source | states |
|---|---|---|
| SequencesExtensions.MatchesUpToWith | RandomFizzBuzz/SequencesExtensions.cs:8-9 | The result is the length of the longest common prefix of the sequence and the reference: all positions below it agree, and it is either the sequence's end or a mismatch. It fails with ArgumentOutOfRange exactly when a list reference is shorter than the sequence and agrees with it to the list's end. |
| SequencesExtensions.CountMatching | RandomFizzBuzz/SequencesExtensions.cs:9 | Resumed after `index` agreeing items, the TakeWhile/Count pipeline returns a match length of at least `index`, or throws exactly in the overrun case. |
| SequencesExtensions.MatchLengthUnique | RandomFizzBuzz/SequencesExtensions.cs:8-9 | The longest-common-prefix characterization has at most one solution, so it determines the matcher's result. |
| SequencesExtensions.EmptyMatchesNothing | RandomFizzBuzz/SequencesExtensions.cs:8-9 | An empty sequence matches 0 elements of any reference and never throws. |
| SequencesExtensions.MatchesItself | RandomFizzBuzz/SequencesExtensions.cs:8-9 | A sequence matched against the same list matches its full length. |
| SequencesExtensions.LazyNeverThrows | RandomFizzBuzz/SequencesExtensions.cs:8-9 | Matching against an unbounded iterator never throws. |
| SequencesExtensions.MatchReadsOnlyProbedPrefix | RandomFizzBuzz/SequencesExtensions.cs:9 | The matcher reads a lazy reference only up to the first mismatch (or the sequence's end). Any list that holds those elements gives the same result, so an infinite reference is consumed only finitely. |
| SequencesExtensions.Classify | RandomFizzBuzz/SequencesExtensions.cs:11-19 | It succeeds exactly when every entry's match succeeds; otherwise it throws ArgumentOutOfRange. On success the result has exactly the input's keys, and each key maps to the match length of its own list against the reference. |
| SequencesExtensions.FizzBuzzWordRule | RandomFizzBuzz/SequencesExtensions.cs:27-33 | The word is "fizz buzz" iff the counter is divisible by 3 and by 5, "fizz" iff by 3 only, and "buzz" iff by 5 only. Otherwise it is the decimal text of the counter: it parses back to the counter when non-negative and starts with '-' when negative. |
| SequencesExtensions.MultipleOf15 | RandomFizzBuzz/SequencesExtensions.cs:27-32 | Testing `% 15` first is the same as testing divisibility by both 3 and 5. |
| SequencesExtensions.WrappingRun | RandomFizzBuzz/SequencesExtensions.cs:23-26 | An iterator whose `int` counter starts in range and is advanced by an unchecked `++` holds, after k resumptions from s, the value s + k wrapped into an `int`. |
| SequencesExtensions.WrappingElementAt | RandomFizzBuzz/SequencesExtensions.cs:21-35 | An iterator that starts its counter at 0, increments it unchecked and then yields a word of the new value yields at index k the word for k + 1 wrapped into an `int`. |
| SequencesExtensions.FizzBuzzAt | RandomFizzBuzz/SequencesExtensions.cs:21-35 | At every index k, element k is the word for the `int` counter value k + 1 wrapped into an `int`. Below index int.MaxValue that value is the position k + 1 itself. |
| SequencesExtensions.FizzBuzzOverflows | RandomFizzBuzz/SequencesExtensions.cs:23-26 | At 0-based index int.MaxValue the unchecked `i++` has wrapped. The element there starts with '-' and differs from the FizzBuzz word for position 2147483648. |
| SequencesExtensions.NoFizzBuzzAtTwoToThe31 | RandomFizzBuzz/SequencesExtensions.cs:27-33 | Neither int.MinValue nor 2^31 is a multiple of 3 or 5, so the first is printed as a negative number and the second as a non-negative one. |
| SequencesExtensions.FizzBuzzUnboundedAt | RandomFizzBuzz/SequencesExtensions.cs:21-35 | The corrected iterator yields, at every index k, the FizzBuzz word for position k + 1. |
| SequencesExtensions.FizzBuzzAgreesBelowOverflow | RandomFizzBuzz/SequencesExtensions.cs:23-26 | The iterator as written and the corrected one agree at every index below int.MaxValue. |
| Int32.Wrap | RandomFizzBuzz/SequencesExtensions.cs:26 | The unchecked `int` result is in range and congruent to the true value modulo 2^32, and it equals the true value when that is in range. |
| Int32.WrapCongruent | RandomFizzBuzz/SequencesExtensions.cs:26 | Two values that differ by a multiple of 2^32 give the same unchecked `int`. |
| Int32.WrapAdd | RandomFizzBuzz/SequencesExtensions.cs:26 | Adding n to an unchecked `int` and wrapping again is the same as adding n to the true value and wrapping once, so repeated `i++` never needs the intermediate wraps. |
| Int32.IncrementWraps | RandomFizzBuzz/SequencesExtensions.cs:26 | `i++` on an `int` adds one below int.MaxValue and gives int.MinValue at it. |
| Decimal.IntToString | RandomFizzBuzz/SequencesExtensions.cs:33 | `int.ToString()` is non-empty and starts with '-' iff the number is negative. After the sign comes the canonical digit string of the absolute value. |
| Decimal.ParseNatToString | RandomFizzBuzz/SequencesExtensions.cs:33 | The decimal text of a natural number parses back to that number. |
| Decimal.NatToStringParse | RandomFizzBuzz/SequencesExtensions.cs:33 | Every canonical digit string is the decimal text of the number it denotes. |
| Decimal.NatToStringInjective | RandomFizzBuzz/SequencesExtensions.cs:33 | Distinct counters print differently. |
| Enumerables.Take | RandomFizzBuzz/RandomFizzBuzzTest.cs:120 | `Take(n)` on an endless iterator yields exactly n elements, the i-th being the iterator's i-th element. |
| RandomFizzBuzzTest.AllNumbersAt | RandomFizzBuzz/RandomFizzBuzzTest.cs:82-89 | `AllNumbers()` yields k + 1 at 0-based index k for every index its `int` counter reaches without wrapping. |
| RandomFizzBuzzTest.NaturalsAt | RandomFizzBuzz/RandomFizzBuzzTest.cs:82-94 | Used as the reference of a match, `AllNumbers()` has an element at every index below int.MaxValue, and the element at index k is k + 1. |
| RandomFizzBuzzTest.AllNumbersWraps | RandomFizzBuzz/RandomFizzBuzzTest.cs:84-87 | After yielding int.MaxValue, the `i++` counter wraps and the next element is int.MinValue. |
| RandomFizzBuzzTest.MatchesUpToWithTestVectors | RandomFizzBuzz/RandomFizzBuzzTest.cs:27-50 | The four expected match lengths 0, 0, 8 and 4 against the list 1..8. Also, a sequence running past the list throws. |
| RandomFizzBuzzTest.MatchesNaturals | RandomFizzBuzz/RandomFizzBuzzTest.cs:56-63 | A list that counts 1..n and then stops counting matches `AllNumbers()` for exactly n elements. |
| RandomFizzBuzzTest.MatchesNaturalsTestVectors | RandomFizzBuzz/RandomFizzBuzzTest.cs:69-78 | The lists 1..3 and 1..10 match `AllNumbers()` for 3 and 10 elements. |
| RandomFizzBuzzTest.BestResultsEntries | RandomFizzBuzz/RandomFizzBuzzTest.cs:96-103 | Each of the five lists matches `AllNumbers()` for exactly the length its comment gives: 6, 0, 2, 8 and 5. |
| RandomFizzBuzzTest.IdentifyBestResults | RandomFizzBuzz/RandomFizzBuzzTest.cs:96-114 | Classifying the five lists against `AllNumbers()` succeeds and gives exactly {1: 6, 2: 0, 3: 2, 4: 8, 5: 5}. |
| RandomFizzBuzzTest.FizzBuzzFirstEleven | RandomFizzBuzz/RandomFizzBuzzTest.cs:174-179 | Taking as many values from `FizzBuzz()` as the test lists gives exactly its list `FirstElevenWords`: "1", "2", "fizz", "4", "buzz", "fizz", "7", "8", "fizz", "buzz", "11". |
| RandomFizzBuzzTest.FizzBuzzFirstSixteen | RandomFizzBuzz/RandomFizzBuzzTest.cs:120-126 | The first sixteen values of `FizzBuzz()`, and of the corrected iterator, are exactly the test's list `FirstSixteenWords`, which ends in "fizz buzz", "16". |
| RandomFizzBuzzTest.FizzBuzzArbitrarilyLong | RandomFizzBuzz/RandomFizzBuzzTest.cs:130-135 | Taking n values from the FizzBuzz sequence gives exactly n values, and value k is the FizzBuzz word for position k + 1. |
| RandomFizzBuzzTest.IterativelyDetectBestSeed | RandomFizzBuzz/RandomFizzBuzzTest.cs:183-199 | The final record is at least every seed's length, and it is 0 or attained by some seed. The log is the scan's log of strict improvements, and its last event carries the final record. |
| RandomFizzBuzzTest.BestSeedLogOrdered | RandomFizzBuzz/RandomFizzBuzzTest.cs:186-197 | Logged events come in increasing seed order with strictly increasing lengths. |
| RandomFizzBuzzTest.BestSeedLogSound | RandomFizzBuzz/RandomFizzBuzzTest.cs:191-197 | Every logged event names a seed in range with its own length, and every smaller seed scored strictly less. |
| RandomFizzBuzzTest.BestSeedLogComplete | RandomFizzBuzz/RandomFizzBuzzTest.cs:191-197 | Every seed with a positive length strictly above all smaller seeds' lengths is logged. |
| RandomFizzBuzzTest.PairsLexicographic | RandomFizzBuzz/RandomFizzBuzzTest.cs:215-217 | The nested loops visit 24n pairs: exactly those with 0 <= seed < n and 0 <= permutation < 24, in lexicographic order. |
| RandomFizzBuzzTest.IterativelyDetectBestSeedConsideringPermutations | RandomFizzBuzz/RandomFizzBuzzTest.cs:212-231 | One record spans all (seed, permutation) pairs. It bounds every pair's length and is 0 or reached by some pair. The log is the scan's log of strict improvements, and its last event carries the final record. |
| RandomFizzBuzzTest.ScanPermutations | RandomFizzBuzz/RandomFizzBuzzTest.cs:217-229 | Trying one seed with all 24 permutation indices in order extends the record and log of the earlier seeds to those of the seeds up to and including it. |
| RandomFizzBuzzTest.PermutationSearchComplete | RandomFizzBuzz/RandomFizzBuzzTest.cs:222-227 | Every visited pair whose positive length is strictly above the length of every pair visited before it is logged with that length. |
| RandomFizzBuzzTest.PairsBest | RandomFizzBuzz/RandomFizzBuzzTest.cs:214-228 | The final record of the permutation search is at least the length of every visited pair, and it is 0 or the length of some visited pair. |
| RandomFizzBuzzTest.PermutationSearchLog | RandomFizzBuzz/RandomFizzBuzzTest.cs:222-227 | Logged pairs come in lexicographic order with strictly increasing lengths. Each names a visited pair with its own length, and every pair visited before it scored strictly less. |
| Records.BestIsMax | RandomFizzBuzz/RandomFizzBuzzTest.cs:185-198 | The record after a scan is at least every candidate's length, and it is either 0 or some candidate's length. |
| Records.LogLengths | RandomFizzBuzz/RandomFizzBuzzTest.cs:191-197 | The log is empty iff the record stays 0. Logged lengths strictly increase, none exceeds the record, and the last equals the final record. |
| Records.ScanOne | RandomFizzBuzz/RandomFizzBuzzTest.cs:191-197 | One loop step: a length above the record replaces it and appends one event; otherwise record and log are unchanged. |
| Records.BestMonotone | RandomFizzBuzz/RandomFizzBuzzTest.cs:191-194 | The running record starts at 0 and never decreases along the scan. |
| Records.ImprovesIff | RandomFizzBuzz/RandomFizzBuzzTest.cs:191 | A candidate beats the running record iff its length is positive and strictly above every earlier candidate's length. |
| Records.LogStep | RandomFizzBuzz/RandomFizzBuzzTest.cs:191-197 | The log grows by exactly one event at an improving candidate and is unchanged at any other. |
| Records.LogSoundAt | RandomFizzBuzz/RandomFizzBuzzTest.cs:191-197 | Each logged event is an improving candidate of the scan, with that candidate's own length. |
| Records.LogComplete | RandomFizzBuzz/RandomFizzBuzzTest.cs:191-197 | Every improving candidate of the scan is logged. |
| Records.LogOrdered | RandomFizzBuzz/RandomFizzBuzzTest.cs:191-197 | Events are logged in the order the loop visits their candidates. |

## Left out

- `FizzBuzzWithSeed(seed)`, `FizzBuzzWithSeed(seed, permutation)`, `ReferenceFizzBuzz()` and `GetPermutations` are not part of this model; their bodies are not available. The search loops take the match length of each candidate as a parameter instead, and the number of permutations as the constant 24 the tests state.
- RandomFizzBuzzTest.FizzBuzzFirstSixteen: the test it follows takes its values from `ReferenceFizzBuzz()`, which is not part of this model. The lemma states them for `FizzBuzz()` and for the corrected FizzBuzz iterator instead.
- RandomFizzBuzzTest.FizzBuzzArbitrarilyLong: likewise, the test it follows takes from `ReferenceFizzBuzz()`. The lemma states its property for the corrected FizzBuzz iterator.
- The append of each "New record!" line to `/tmp/fizz-buzz.log` is file I/O. It is modelled as a log of (candidate, length) events, without the text formatting.
- IterativelyDetectBestSeed and IterativelyDetectBestSeedConsideringPermutations: the loop bound is a parameter `n <= int.MaxValue`. The source's own bound is `n = int.MaxValue`, which visits the 2^31 - 1 seeds 0 to int.MaxValue - 1, and the contracts hold for every such n.
- SequencesExtensions.MatchesUpToWith: the compared sequence is finite. On an infinite sequence the C# code throws: `ArgumentOutOfRangeException` past the end of a list reference, or `OverflowException` after 2^31 - 1 matched items of a lazy one. The model takes finite sequences only.
- SequencesExtensions.MatchesUpToWith: LINQ's `TakeWhile` index and `Count()` are `int` counters incremented in `checked` blocks. Past 2^31 - 1 matched items the source throws `OverflowException`. The model counts in unbounded naturals and does not model that exception.
- SequencesExtensions.Classify: the model does not fix the enumeration order of the dictionary. Its contract holds for every order, including which exception escapes. Duplicate keys cannot occur in a dictionary, so `Dictionary.Add` never throws here.
- Decimal.IntToString: culture-specific formatting of `ToString()` is not modelled. The invariant-culture form is used: an optional '-' and then digits.
- `should_detect_best_seed` is skipped in the source. Its in-memory dictionary of a million sequences, sorted by value, is not modelled.
- RandomFizzBuzzTest.FizzBuzzFirstEleven: `should_work_up_to_11_values` compares the whole endless iterator with an 11-element list. The lemma states the property the test's name promises: the first eleven values.
- `should_generate_random_fizz_buzz_sequence` and `should_get_permutations` test the seeded generator and the permutation helper, which are not part of this model.

## Findings

| source | as written | input that shows it | evidently intended | confidence | as-written member | corrected member |
|---|---|---|---|---|---|---|
| RandomFizzBuzz/SequencesExtensions.cs:23-33 | The counter `i` of `FizzBuzz()` is an unchecked `int`. After 2147483647 values, `i++` wraps to int.MinValue. | 0-based index 2147483647: the iterator yields "-2147483648" instead of "2147483648". | The endless FizzBuzz sequence, in which element k is the word for position k + 1. | not executed; follows from C# unchecked `int` arithmetic | SequencesExtensions.FizzBuzzOverflows | SequencesExtensions.FizzBuzzUnboundedAt |

`AllNumbers()` (RandomFizzBuzz/RandomFizzBuzzTest.cs:82-89) wraps the same way
after int.MaxValue (`RandomFizzBuzzTest.AllNumbersWraps`). The tests only look
at its first ten elements.

=== FILE: decimal.dfy ===
/**
 * Decimal text of integers, as `Int32.ToString()` produces it under the
 * invariant culture: an optional '-' followed by the digits of the
 * magnitude, without leading zeros.
 */
module Decimal {

  datatype Option<T> = None | Some(value: T)

  predicate IsDigit(c: char) {
    '0' <= c <= '9'
  }

  predicate AllDigits(s: string) {
    forall i :: 0 <= i < |s| ==> IsDigit(s[i])
  }

  /** A non-empty digit string without a superfluous leading zero. */
  predicate IsCanonical(s: string) {
    |s| >= 1 && AllDigits(s) && (|s| > 1 ==> s[0] != '0')
  }

  function DigitChar(d: nat): (c: char)
    requires d < 10
    ensures IsDigit(c)
    ensures c as int - '0' as int == d
  {
    ('0' as int + d) as char
  }

  function DigitValue(c: char): (d: nat)
    requires IsDigit(c)
    ensures d < 10
    ensures DigitChar(d) == c
  {
    c as int - '0' as int
  }

  /** The digits of `n`, most significant first. */
  function NatToString(n: nat): (s: string)
    ensures IsCanonical(s)
    decreases n
  {
    if n < 10 then [DigitChar(n)] else NatToString(n / 10) + [DigitChar(n % 10)]
  }

  /** `x.ToString()` for a C# `int` (any integer here). */
  function IntToString(x: int): (s: string)
    ensures |s| >= 1
    ensures x < 0 <==> s[0] == '-'
    ensures x >= 0 ==> s == NatToString(x)
    ensures x < 0 ==> s[1..] == NatToString(-x)
  {
    if x < 0 then "-" + NatToString(-x) else NatToString(x)
  }

  /** The number a digit string denotes. */
  function Value(s: string): nat
    requires AllDigits(s)
  {
    if |s| == 0 then 0 else Value(s[..|s| - 1]) * 10 + DigitValue(s[|s| - 1])
  }

  /** Reading decimal text back: the inverse of `NatToString`. */
  function Parse(s: string): Option<nat> {
    if IsCanonical(s) then Some(Value(s)) else None
  }

  lemma {:induction false} ValuePositive(s: string)
    requires IsCanonical(s) && s[0] != '0'
    ensures Value(s) >= 1
    decreases |s|
  {
    if |s| > 1 {
      var init := s[..|s| - 1];
      assert init[0] == s[0];
      ValuePositive(init);
    } else {
      assert DigitValue(s[0]) != 0;
    }
  }

  /** Printing then parsing gives the number back. */
  lemma {:induction false} ParseNatToString(n: nat)
    ensures Parse(NatToString(n)) == Some(n)
    decreases n
  {
    var s := NatToString(n);
    if n >= 10 {
      ParseNatToString(n / 10);
      assert s[..|s| - 1] == NatToString(n / 10);
      assert DigitValue(s[|s| - 1]) == n % 10;
    } else {
      assert s[..0] == [];
      assert Value(s[..0]) == 0;
      assert DigitValue(s[0]) == n;
    }
  }

  /** Parsing then printing gives the text back: canonical digit strings and naturals are in bijection. */
  lemma {:induction false} NatToStringParse(s: string)
    requires Parse(s).Some?
    ensures NatToString(Parse(s).value) == s
    decreases |s|
  {
    var n := Value(s);
    if |s| == 1 {
      assert s[..0] == [];
      assert Value(s[..0]) == 0;
      assert n == DigitValue(s[0]);
    } else {
      var init := s[..|s| - 1];
      assert init[0] == s[0];
      assert IsCanonical(init);
      ValuePositive(init);
      NatToStringParse(init);
      assert n / 10 == Value(init);
      assert n % 10 == DigitValue(s[|s| - 1]);
      assert s == init + [s[|s| - 1]];
    }
  }

  lemma NatToStringInjective(m: nat, n: nat)
    requires NatToString(m) == NatToString(n)
    ensures m == n
  {
    ParseNatToString(m);
    ParseNatToString(n);
  }
}

=== FILE: enumerables.dfy ===
/**
 * The two kinds of `IEnumerable` the system works with: lazy generators
 * (C# `yield return` iterators, possibly without end) and materialized lists,
 * together with the LINQ operations the core uses on them.
 */
module Enumerables {

  /** The exceptions LINQ raises in the modelled code. */
  datatype Exception = ArgumentOutOfRange

  /** A computation that either returns normally or throws. */
  datatype Result<T> = Success(value: T) | Failure(error: Exception)

  /**
   * A `yield return` iterator: the local state it starts from and the step
   * that runs its body up to the next `yield return`, giving the yielded value
   * and the state in which the iterator is suspended. The iterators modelled
   * here never leave their loop, so every generator is unbounded.
   */
  datatype Generator<!S, T> = Generator(start: S, next: S -> (T, S))

  /** The state of an iterator resumed `k` times from `s`. */
  function Run<S, T>(next: S -> (T, S), s: S, k: nat): S
    decreases k
  {
    if k == 0 then s else Run(next, next(s).1, k - 1)
  }

  /** Resuming `k + 1` times is resuming `k` times and then once more. */
  lemma {:induction false} RunOneMore<S, T>(next: S -> (T, S), s: S, k: nat)
    ensures Run(next, s, k + 1) == next(Run(next, s, k)).1
    decreases k
  {
    if k > 0 {
      RunOneMore(next, next(s).1, k - 1);
    }
  }

  /** LINQ `ElementAt(k)` on a generator: the value of the `(k+1)`-th `yield return`. */
  function ElementAt<S, T>(g: Generator<S, T>, k: nat): T {
    g.next(Run(g.next, g.start, k)).0
  }

  /** The first `n` values yielded from state `s`, pulling them one at a time. */
  function TakeFrom<S, T>(next: S -> (T, S), s: S, n: nat): (r: seq<T>)
    ensures |r| == n
    ensures forall i :: 0 <= i < n ==> r[i] == next(Run(next, s, i)).0
    decreases n
  {
    if n == 0 then [] else [next(s).0] + TakeFrom(next, next(s).1, n - 1)
  }

  /**
   * LINQ `Take(n)` on a generator: since the iterator never ends, it always
   * yields exactly `n` values, the `i`-th being `ElementAt(g, i)`.
   */
  function Take<S, T>(g: Generator<S, T>, n: nat): (r: seq<T>)
    ensures |r| == n
    ensures forall i :: 0 <= i < n ==> r[i] == ElementAt(g, i)
  {
    TakeFrom(g.next, g.start, n)
  }

  /** `Take` gives exactly the list whose elements are the generator's first ones. */
  lemma TakeIs<S, T>(g: Generator<S, T>, xs: seq<T>)
    requires forall i :: 0 <= i < |xs| ==> ElementAt(g, i) == xs[i]
    ensures Take(g, |xs|) == xs
  {
  }

  /**
   * The `IEnumerable` a sequence is compared against: a materialized list,
   * which ends, or a lazy stream, which does not.
   */
  datatype Reference<T> = Materialized(items: seq<T>) | Lazy(at: nat -> T) {

    /** Whether the reference has an element at `index`. */
    predicate Has(index: nat) {
      Lazy? || index < |items|
    }

    function At(index: nat): T
      requires Has(index)
    {
      if Lazy? then at(index) else items[index]
    }

    /** LINQ `ElementAt(index)`: throws past the end of a materialized list. */
    function ElementAt(index: nat): Result<T> {
      match this
      case Lazy(at) => Success(at(index))
      case Materialized(items) =>
        if index < |items| then Success(items[index]) else Failure(ArgumentOutOfRange)
    }
  }

  /** A generator seen as a lazy reference. */
  function AsReference<S, T>(g: Generator<S, T>): Reference<T> {
    Lazy((k: nat) => ElementAt(g, k))
  }
}

=== FILE: int32.dfy ===
/**
 * The C# `int` type: 32-bit two's complement integers. The iterators of the
 * system count with `int` variables and `++` in the default unchecked
 * context, so an increment past `int.MaxValue` wraps to `int.MinValue`.
 */
module Int32 {

  const MinValue: int := -0x8000_0000
  const MaxValue: int := 0x7fff_ffff
  const Modulus: int := 0x1_0000_0000

  predicate InRange(x: int) {
    MinValue <= x <= MaxValue
  }

  /** The `int` an unchecked C# computation yields for the mathematical value `x`. */
  function Wrap(x: int): (r: int)
    ensures InRange(r)
    ensures (r - x) % Modulus == 0
    ensures InRange(x) ==> r == x
  {
    (x - MinValue) % Modulus + MinValue
  }

  /** Values congruent modulo 2^32 wrap to the same `int`. */
  lemma WrapCongruent(a: int, b: int)
    requires (a - b) % Modulus == 0
    ensures Wrap(a) == Wrap(b)
  {
    var u, v := a - MinValue, b - MinValue;
    assert u - v == Modulus * ((u - v) / Modulus);
    assert u == Modulus * (u / Modulus) + u % Modulus;
    assert v == Modulus * (v / Modulus) + v % Modulus;
    var t := (u - v) / Modulus - u / Modulus + v / Modulus;
    assert u % Modulus - v % Modulus == Modulus * t;
  }

  /** Wrapping after every step of a computation is wrapping once at the end. */
  lemma WrapAdd(x: int, n: int)
    ensures Wrap(Wrap(x) + n) == Wrap(x + n)
  {
    WrapCongruent(Wrap(x) + n, x + n);
  }

  /** Unchecked `x + 1`: exact below `int.MaxValue`, wrapping at it. */
  lemma IncrementWraps(x: int)
    requires InRange(x)
    ensures x < MaxValue ==> Wrap(x + 1) == x + 1
    ensures x == MaxValue ==> Wrap(x + 1) == MinValue
  {
  }
}

=== FILE: random_fizz_buzz_test.dfy ===
/**
 * What the test class of the system contributes to the core: the unbounded
 * `AllNumbers()` reference, the exact values its tests pin, and the two
 * brute-force loops that scan seeds (and permutation indices) keeping a
 * running record and logging every strict improvement.
 */
module RandomFizzBuzzTest {
  import opened Enumerables
  import opened SequencesExtensions
  import opened Records
  import Int32

  // ---------------------------------------------------------------------------
  // AllNumbers
  // ---------------------------------------------------------------------------

  /** One resumption of `AllNumbers()`: `yield return i++` on a C# `int`. */
  function AllNumbersStep(i: int): (int, int) {
    (i, Int32.Wrap(i + 1))
  }

  /** `AllNumbers()`: 1, 2, 3, ... counted in an `int` starting at 1. */
  function AllNumbers(): Generator<int, int> {
    Generator(1, AllNumbersStep)
  }

  lemma {:induction false} AllNumbersCounter(s: int, k: nat)
    requires 1 <= s && s + k <= Int32.MaxValue
    ensures Run(AllNumbersStep, s, k) == s + k
    decreases k
  {
    if k > 0 {
      AllNumbersCounter(s + 1, k - 1);
    }
  }

  /** The element at 0-based index `k` is `k + 1`, for every index an `int` counter reaches. */
  lemma AllNumbersAt(k: nat)
    requires k < Int32.MaxValue
    ensures ElementAt(AllNumbers(), k) == k + 1
  {
    AllNumbersCounter(1, k);
  }

  /** After yielding `int.MaxValue` the counter wraps, so the next element is `int.MinValue`. */
  lemma AllNumbersWraps()
    ensures ElementAt(AllNumbers(), Int32.MaxValue - 1) == Int32.MaxValue
    ensures ElementAt(AllNumbers(), Int32.MaxValue) == Int32.MinValue
  {
    AllNumbersCounter(1, Int32.MaxValue - 1);
    RunOneMore(AllNumbersStep, 1, Int32.MaxValue - 1);
  }

  /** `AllNumbers()` as the reference of a match. */
  function Naturals(): Reference<int> {
    AsReference(AllNumbers())
  }

  /** Matched against, `AllNumbers()` never runs out and holds `k + 1` at index `k`. */
  lemma NaturalsAt(k: nat)
    requires k < Int32.MaxValue
    ensures Naturals().Has(k)
    ensures Naturals().At(k) == k + 1
  {
    AllNumbersAt(k);
  }

  // ---------------------------------------------------------------------------
  // Pinned values
  // ---------------------------------------------------------------------------

  /** The test vectors of `should_detect_length_of_matching_sequence`, against the list 1..8. */
  lemma MatchesUpToWithTestVectors()
    ensures MatchesUpToWith([], Materialized([1, 2, 3, 4, 5, 6, 7, 8])) == Success(0)
    ensures MatchesUpToWith([1000, 2, 3, 4, 5, 6, 7, 8], Materialized([1, 2, 3, 4, 5, 6, 7, 8])) == Success(0)
    ensures MatchesUpToWith([1, 2, 3, 4, 5, 6, 7, 8], Materialized([1, 2, 3, 4, 5, 6, 7, 8])) == Success(8)
    ensures MatchesUpToWith([1, 2, 3, 4, 100, 200, 300], Materialized([1, 2, 3, 4, 5, 6, 7, 8])) == Success(4)
    ensures MatchesUpToWith([1, 2, 3, 4, 5, 6, 7, 8, 9], Materialized([1, 2, 3, 4, 5, 6, 7, 8])) == Failure(ArgumentOutOfRange)
  {
  }

  /** A list that counts 1, 2, ..., n and then stops counting (or ends) matches `AllNumbers()` exactly `n` places. */
  lemma MatchesNaturals(s: seq<int>, n: nat)
    requires n <= |s| < Int32.MaxValue
    requires forall i :: 0 <= i < n ==> s[i] == i + 1
    requires n < |s| ==> s[n] != n + 1
    ensures MatchesUpToWith(s, Naturals()) == Success(n)
  {
    forall k: nat | k < |s| {
      AllNumbersAt(k);
    }
    MatchLengthUnique(s, Naturals(), n, MatchesUpToWith(s, Naturals()).value);
  }

  /** The test vectors of `should_work_with_infinite_sequences`, against `AllNumbers()`. */
  lemma MatchesNaturalsTestVectors()
    ensures MatchesUpToWith([1, 2, 3], Naturals()) == Success(3)
    ensures MatchesUpToWith([1, 2, 3, 4, 5, 6, 7, 8, 9, 10], Naturals()) == Success(10)
  {
    MatchesNaturals([1, 2, 3], 3);
    MatchesNaturals([1, 2, 3, 4, 5, 6, 7, 8, 9, 10], 10);
  }

  /** The dictionary `should_identify_best_results` classifies. */
  const BestResultsInput: map<int, seq<int>> := map[
    1 := [1, 2, 3, 4, 5, 6],
    2 := [100, 2, 3, 4, 5, 6],
    3 := [1, 2, 300, 4, 5, 6],
    4 := [1, 2, 3, 4, 5, 6, 7, 8],
    5 := [1, 2, 3, 4, 5]]

  /** The result `should_identify_best_results` expects. */
  const BestResultsExpected: map<int, nat> := map[1 := 6, 2 := 0, 3 := 2, 4 := 8, 5 := 5]

  /** Each list of `should_identify_best_results` matches `AllNumbers()` as far as the test expects. */
  lemma BestResultsEntries()
    ensures BestResultsInput.Keys == BestResultsExpected.Keys
    ensures forall key :: key in BestResultsInput ==>
      MatchesUpToWith(BestResultsInput[key], Naturals()) == Success(BestResultsExpected[key])
  {
    forall key | key in BestResultsInput
      ensures MatchesUpToWith(BestResultsInput[key], Naturals()) == Success(BestResultsExpected[key])
    {
      MatchesNaturals(BestResultsInput[key], BestResultsExpected[key]);
    }
  }

  /** `should_identify_best_results`: classifying five lists against `AllNumbers()`. */
  method IdentifyBestResults() returns (r: Result<map<int, nat>>)
    ensures r == Success(BestResultsExpected)
  {
    BestResultsEntries();
    r := Classify(BestResultsInput, Naturals());
    assert r.Success?;
    assert r.value.Keys == BestResultsExpected.Keys;
    assert forall key :: key in BestResultsExpected ==> r.value[key] == BestResultsExpected[key];
    assert r.value == BestResultsExpected;
  }

  /** The values `should_generate_fizz_buzz_sequence` expects. */
  const FirstSixteenWords: seq<string> :=
    ["1", "2", "fizz", "4", "buzz", "fizz", "7", "8", "fizz", "buzz", "11", "fizz", "13", "14", "fizz buzz", "16"]

  /** The values `should_work_up_to_11_values` expects. */
  const FirstElevenWords: seq<string> :=
    ["1", "2", "fizz", "4", "buzz", "fizz", "7", "8", "fizz", "buzz", "11"]

  /** The FizzBuzz rule at positions 1 to 16. */
  lemma FizzBuzzWordsToSixteen()
    ensures FizzBuzzWord(1) == "1" && FizzBuzzWord(2) == "2" && FizzBuzzWord(3) == "fizz" && FizzBuzzWord(4) == "4"
    ensures FizzBuzzWord(5) == "buzz" && FizzBuzzWord(6) == "fizz" && FizzBuzzWord(7) == "7" && FizzBuzzWord(8) == "8"
    ensures FizzBuzzWord(9) == "fizz" && FizzBuzzWord(10) == "buzz" && FizzBuzzWord(11) == "11" && FizzBuzzWord(12) == "fizz"
    ensures FizzBuzzWord(13) == "13" && FizzBuzzWord(14) == "14" && FizzBuzzWord(15) == "fizz buzz" && FizzBuzzWord(16) == "16"
  {
  }

  /** The sixteen expected values are the FizzBuzz words of positions 1 to 16. */
  lemma SixteenWordsFollowRule()
    ensures forall k :: 0 <= k < |FirstSixteenWords| ==> FirstSixteenWords[k] == FizzBuzzWord(k + 1)
  {
    FizzBuzzWordsToSixteen();
  }

  /** The eleven expected values are the FizzBuzz words of positions 1 to 11. */
  lemma ElevenWordsFollowRule()
    ensures forall k :: 0 <= k < |FirstElevenWords| ==> FirstElevenWords[k] == FizzBuzzWord(k + 1)
  {
    FizzBuzzWordsToSixteen();
  }

  /** Any number of values can be taken from the FizzBuzz sequence, each the word for its position. */
  lemma FizzBuzzArbitrarilyLong(n: nat)
    ensures |Take(FizzBuzzUnbounded(), n)| == n
    ensures forall k :: 0 <= k < n ==> Take(FizzBuzzUnbounded(), n)[k] == FizzBuzzWord(k + 1)
  {
    forall k | 0 <= k < n
      ensures Take(FizzBuzzUnbounded(), n)[k] == FizzBuzzWord(k + 1)
    {
      FizzBuzzUnboundedAt(k);
    }
  }

  /** `should_work_up_to_11_values`: the first eleven values of `FizzBuzz()`. */
  lemma FizzBuzzFirstEleven()
    ensures Take(FizzBuzz(), |FirstElevenWords|) == FirstElevenWords
  {
    ElevenWordsFollowRule();
    forall k | 0 <= k < |FirstElevenWords|
      ensures ElementAt(FizzBuzz(), k) == FirstElevenWords[k]
    {
      FizzBuzzAgreesBelowOverflow(k);
      FizzBuzzUnboundedAt(k);
    }
    TakeIs(FizzBuzz(), FirstElevenWords);
  }

  /** The first sixteen values of `FizzBuzz()`, and of the FizzBuzz sequence with the corrected counter. */
  lemma FizzBuzzFirstSixteen()
    ensures Take(FizzBuzz(), |FirstSixteenWords|) == FirstSixteenWords
    ensures Take(FizzBuzzUnbounded(), |FirstSixteenWords|) == FirstSixteenWords
  {
    SixteenWordsFollowRule();
    forall k | 0 <= k < |FirstSixteenWords|
      ensures ElementAt(FizzBuzz(), k) == FirstSixteenWords[k]
    {
      FizzBuzzAt(k);
    }
    TakeIs(FizzBuzz(), FirstSixteenWords);
    FizzBuzzArbitrarilyLong(|FirstSixteenWords|);
  }

  // ---------------------------------------------------------------------------
  // Brute-force record search
  // ---------------------------------------------------------------------------

  /** The seeds `0 .. n-1` in the order the loop visits them. */
  function Seeds(n: nat): seq<int> {
    seq(n, i => i)
  }

  /**
   * `should_iteratively_detect_best_seed`, run over the seeds `0 .. n-1`
   * (`n` stands for the loop bound `int.MaxValue`). `lengthOf(seed)` is the
   * match length of the seeded sequence against the reference FizzBuzz.
   */
  method IterativelyDetectBestSeed(n: nat, lengthOf: int -> nat) returns (record: nat, log: seq<NewRecord<int>>)
    requires n <= Int32.MaxValue
    ensures record == Best(Seeds(n), lengthOf)
    ensures log == Log(Seeds(n), lengthOf)
    ensures forall seed :: 0 <= seed < n ==> lengthOf(seed) <= record
    ensures record == 0 || exists seed :: 0 <= seed < n && lengthOf(seed) == record
    ensures |log| > 0 ==> log[|log| - 1].length == record
  {
    record := 0;
    log := [];
    var i := 0;
    while i < n
      invariant 0 <= i <= n
      invariant record == Best(Seeds(i), lengthOf)
      invariant log == Log(Seeds(i), lengthOf)
    {
      assert Seeds(i + 1) == Seeds(i) + [i];
      ScanOne(Seeds(i), i, lengthOf);
      var length := lengthOf(i);
      if length > record {
        record := length;
        log := log + [NewRecord(i, record)];
      }
      i := i + 1;
    }
    BestIsMax(Seeds(n), lengthOf);
    LogLengths(Seeds(n), lengthOf);
    forall seed | 0 <= seed < n
      ensures lengthOf(seed) <= record
    {
      assert Seeds(n)[seed] == seed;
    }
    if record != 0 {
      var w :| 0 <= w < n && lengthOf(Seeds(n)[w]) == record;
      assert Seeds(n)[w] == w;
    }
  }

  /** The seed search logs events in increasing seed order, with strictly increasing lengths. */
  lemma BestSeedLogOrdered(n: nat, lengthOf: int -> nat)
    ensures var log := Log(Seeds(n), lengthOf);
      forall a, b :: 0 <= a < b < |log| ==> log[a].candidate < log[b].candidate && log[a].length < log[b].length
  {
    LogOrdered(Seeds(n), lengthOf, (a: int, b: int) => a < b);
    LogLengths(Seeds(n), lengthOf);
  }

  /**
   * Every event of the seed search names a seed in range with its own length,
   * and that seed is the first to reach the length: every smaller seed
   * scored strictly less.
   */
  lemma BestSeedLogSound(n: nat, lengthOf: int -> nat)
    ensures var log := Log(Seeds(n), lengthOf);
      forall t :: 0 <= t < |log| ==>
        && 0 <= log[t].candidate < n
        && log[t].length == lengthOf(log[t].candidate)
        && forall seed :: 0 <= seed < log[t].candidate ==> lengthOf(seed) < log[t].length
  {
    var cs := Seeds(n);
    var log := Log(cs, lengthOf);
    forall t | 0 <= t < |log|
      ensures 0 <= log[t].candidate < n
      ensures log[t].length == lengthOf(log[t].candidate)
      ensures forall seed :: 0 <= seed < log[t].candidate ==> lengthOf(seed) < log[t].length
    {
      var j := LogSoundAt(cs, lengthOf, t);
      ImprovesIff(cs, lengthOf, j);
      forall seed | 0 <= seed < log[t].candidate
        ensures lengthOf(seed) < log[t].length
      {
        assert cs[seed] == seed;
      }
    }
  }

  /** Every seed that scores positive and strictly above all smaller seeds is logged. */
  lemma BestSeedLogComplete(n: nat, lengthOf: int -> nat, seed: int)
    requires 0 <= seed < n && lengthOf(seed) > 0
    requires forall s :: 0 <= s < seed ==> lengthOf(s) < lengthOf(seed)
    ensures NewRecord(seed, lengthOf(seed)) in Log(Seeds(n), lengthOf)
  {
    var cs := Seeds(n);
    assert forall i :: 0 <= i < seed ==> cs[i] == i;
    ImprovesIff(cs, lengthOf, seed);
    LogComplete(cs, lengthOf, seed);
  }

  /** The number of orderings of the four output symbols a seed is tried with. */
  const PermutationCount: nat := 24

  /** A seed together with a permutation index. */
  datatype Candidate = Candidate(seed: int, permutation: int)

  /** Lexicographic order on (seed, permutation). */
  predicate Precedes(a: Candidate, b: Candidate) {
    a.seed < b.seed || (a.seed == b.seed && a.permutation < b.permutation)
  }

  /** The first `p` permutation indices of one seed, in order. */
  function Row(seed: int, p: nat): seq<Candidate> {
    seq(p, q => Candidate(seed, q))
  }

  /** The candidates of seeds `0 .. n-1`, each with permutations `0 .. 23`, in the order the nested loops visit them. */
  function Pairs(n: nat): seq<Candidate>
  {
    if n == 0 then [] else Pairs(n - 1) + Row(n - 1, PermutationCount)
  }

  /**
   * The nested loops visit exactly the pairs with `0 <= seed < n` and
   * `0 <= permutation < 24`, each once, in lexicographic order.
   */
  lemma {:induction false} PairsLexicographic(n: nat)
    ensures |Pairs(n)| == PermutationCount * n
    ensures forall c: Candidate :: c in Pairs(n) <==> 0 <= c.seed < n && 0 <= c.permutation < PermutationCount
    ensures forall i, j :: 0 <= i < j < |Pairs(n)| ==> Precedes(Pairs(n)[i], Pairs(n)[j])
  {
    if n > 0 {
      PairsLexicographic(n - 1);
      var prev, row := Pairs(n - 1), Row(n - 1, PermutationCount);
      assert Pairs(n) == prev + row;
      forall c: Candidate | 0 <= c.seed < n && 0 <= c.permutation < PermutationCount
        ensures c in Pairs(n)
      {
        if c.seed == n - 1 {
          assert row[c.permutation] == c;
        } else {
          assert c in prev;
        }
      }
      forall i, j | 0 <= i < j < |Pairs(n)|
        ensures Precedes(Pairs(n)[i], Pairs(n)[j])
      {
        if j >= |prev| && i < |prev| {
          assert prev[i] in prev;
        }
      }
    }
  }

  /**
   * The inner loop of the permutation search: seed `i` tried with every
   * permutation index in turn, carrying the record and log of the seeds
   * before it.
   */
  method ScanPermutations(i: nat, lengthOf: Candidate -> nat, record0: nat, log0: seq<NewRecord<Candidate>>)
    returns (record: nat, log: seq<NewRecord<Candidate>>)
    requires record0 == Best(Pairs(i), lengthOf)
    requires log0 == Log(Pairs(i), lengthOf)
    ensures record == Best(Pairs(i + 1), lengthOf)
    ensures log == Log(Pairs(i + 1), lengthOf)
  {
    record, log := record0, log0;
    var permutation := 0;
    assert Pairs(i) + Row(i, 0) == Pairs(i);
    while permutation < PermutationCount
      invariant 0 <= permutation <= PermutationCount
      invariant record == Best(Pairs(i) + Row(i, permutation), lengthOf)
      invariant log == Log(Pairs(i) + Row(i, permutation), lengthOf)
    {
      ghost var visited := Pairs(i) + Row(i, permutation);
      assert Pairs(i) + Row(i, permutation + 1) == visited + [Candidate(i, permutation)];
      ScanOne(visited, Candidate(i, permutation), lengthOf);
      var length := lengthOf(Candidate(i, permutation));
      if length > record {
        record := length;
        log := log + [NewRecord(Candidate(i, permutation), record)];
      }
      permutation := permutation + 1;
    }
  }

  /**
   * `should_iteratively_detect_best_seed_considering_permutations`, run over
   * the seeds `0 .. n-1`: one record spans every (seed, permutation) pair.
   * `lengthOf(c)` is the match length of the sequence seeded by `c.seed` with
   * permutation `c.permutation` against the reference FizzBuzz.
   */
  method IterativelyDetectBestSeedConsideringPermutations(n: nat, lengthOf: Candidate -> nat)
    returns (record: nat, log: seq<NewRecord<Candidate>>)
    requires n <= Int32.MaxValue
    ensures record == Best(Pairs(n), lengthOf)
    ensures log == Log(Pairs(n), lengthOf)
    ensures forall seed, permutation :: 0 <= seed < n && 0 <= permutation < PermutationCount ==>
      lengthOf(Candidate(seed, permutation)) <= record
    ensures record == 0 || exists seed, permutation ::
      0 <= seed < n && 0 <= permutation < PermutationCount && lengthOf(Candidate(seed, permutation)) == record
    ensures |log| > 0 ==> log[|log| - 1].length == record
  {
    record := 0;
    log := [];
    var i := 0;
    while i < n
      invariant 0 <= i <= n
      invariant record == Best(Pairs(i), lengthOf)
      invariant log == Log(Pairs(i), lengthOf)
    {
      record, log := ScanPermutations(i, lengthOf, record, log);
      i := i + 1;
    }
    PairsBest(n, lengthOf);
    LogLengths(Pairs(n), lengthOf);
  }

  /**
   * Every visited pair whose positive length is strictly above the length of
   * every pair visited before it is logged.
   */
  lemma PermutationSearchComplete(n: nat, lengthOf: Candidate -> nat, c: Candidate)
    requires 0 <= c.seed < n && 0 <= c.permutation < PermutationCount && lengthOf(c) > 0
    requires forall d :: d in Pairs(n) && Precedes(d, c) ==> lengthOf(d) < lengthOf(c)
    ensures NewRecord(c, lengthOf(c)) in Log(Pairs(n), lengthOf)
  {
    var cs := Pairs(n);
    PairsLexicographic(n);
    assert c in cs;
    var j :| 0 <= j < |cs| && cs[j] == c;
    forall i | 0 <= i < j
      ensures lengthOf(cs[i]) < lengthOf(cs[j])
    {
      assert cs[i] in cs;
    }
    ImprovesIff(cs, lengthOf, j);
    LogComplete(cs, lengthOf, j);
  }

  /** The record of the permutation search bounds every pair it visits, and is 0 or reached by one. */
  lemma PairsBest(n: nat, lengthOf: Candidate -> nat)
    ensures forall seed, permutation :: 0 <= seed < n && 0 <= permutation < PermutationCount ==>
      lengthOf(Candidate(seed, permutation)) <= Best(Pairs(n), lengthOf)
    ensures var best := Best(Pairs(n), lengthOf);
      best == 0 || exists seed, permutation ::
        0 <= seed < n && 0 <= permutation < PermutationCount && lengthOf(Candidate(seed, permutation)) == best
  {
    PairsLexicographic(n);
    BestIsMax(Pairs(n), lengthOf);
    forall seed, permutation | 0 <= seed < n && 0 <= permutation < PermutationCount
      ensures lengthOf(Candidate(seed, permutation)) <= Best(Pairs(n), lengthOf)
    {
      var c := Candidate(seed, permutation);
      assert c in Pairs(n);
    }
    if Best(Pairs(n), lengthOf) != 0 {
      var w :| 0 <= w < |Pairs(n)| && lengthOf(Pairs(n)[w]) == Best(Pairs(n), lengthOf);
      var c := Pairs(n)[w];
      assert c in Pairs(n);
      assert 0 <= c.seed < n && 0 <= c.permutation < PermutationCount;
      assert lengthOf(Candidate(c.seed, c.permutation)) == Best(Pairs(n), lengthOf);
    }
  }

  /**
   * The log of the permutation search: events come in lexicographic
   * (seed, permutation) order with strictly increasing lengths, and each
   * logged pair beats every pair visited before it strictly.
   */
  lemma PermutationSearchLog(n: nat, lengthOf: Candidate -> nat)
    ensures var log := Log(Pairs(n), lengthOf);
      forall a, b :: 0 <= a < b < |log| ==> Precedes(log[a].candidate, log[b].candidate) && log[a].length < log[b].length
    ensures var log := Log(Pairs(n), lengthOf);
      forall t :: 0 <= t < |log| ==>
        && 0 <= log[t].candidate.seed < n
        && 0 <= log[t].candidate.permutation < PermutationCount
        && log[t].length == lengthOf(log[t].candidate)
        && forall c :: c in Pairs(n) && Precedes(c, log[t].candidate) ==> lengthOf(c) < log[t].length
  {
    var cs := Pairs(n);
    var log := Log(cs, lengthOf);
    PairsLexicographic(n);
    LogOrdered(cs, lengthOf, Precedes);
    forall t | 0 <= t < |log|
      ensures 0 <= log[t].candidate.seed < n
      ensures 0 <= log[t].candidate.permutation < PermutationCount
      ensures log[t].length == lengthOf(log[t].candidate)
      ensures forall c :: c in cs && Precedes(c, log[t].candidate) ==> lengthOf(c) < log[t].length
    {
      var j := LogSoundAt(cs, lengthOf, t);
      ImprovesIff(cs, lengthOf, j);
      assert cs[j] in cs;
      forall c | c in cs && Precedes(c, log[t].candidate)
        ensures lengthOf(c) < log[t].length
      {
        var i :| 0 <= i < |cs| && cs[i] == c;
        if i >= j {
          assert false;
        }
      }
    }
  }
}

=== FILE: records.dfy ===
/**
 * The record keeping of the brute-force searches: candidates are scanned in
 * order, a running `record` starts at 0, and a "New record!" event is logged
 * exactly when a candidate's match length strictly beats the record.
 * Candidates are of any type `K`; `lengthOf` gives each one's match length.
 */
module Records {

  /** One logged "New record!" line: the candidate that set it and the new record length. */
  datatype NewRecord<K> = NewRecord(candidate: K, length: nat)

  /** The value of `record` after scanning `cs`: the largest length seen, or 0. */
  function Best<K>(cs: seq<K>, lengthOf: K -> nat): nat
    decreases |cs|
  {
    if |cs| == 0 then 0
    else
      var init, last := cs[..|cs| - 1], cs[|cs| - 1];
      if lengthOf(last) > Best(init, lengthOf) then lengthOf(last) else Best(init, lengthOf)
  }

  /** The final record is the maximum of 0 and all the lengths seen. */
  lemma {:induction false} BestIsMax<K>(cs: seq<K>, lengthOf: K -> nat)
    ensures forall i :: 0 <= i < |cs| ==> lengthOf(cs[i]) <= Best(cs, lengthOf)
    ensures Best(cs, lengthOf) == 0 || exists i :: 0 <= i < |cs| && lengthOf(cs[i]) == Best(cs, lengthOf)
    decreases |cs|
  {
    if |cs| > 0 {
      var n := |cs| - 1;
      var init := cs[..n];
      BestIsMax(init, lengthOf);
      assert forall i :: 0 <= i < n ==> init[i] == cs[i];
      if Best(init, lengthOf) != 0 && Best(cs, lengthOf) == Best(init, lengthOf) {
        var w :| 0 <= w < n && lengthOf(init[w]) == Best(init, lengthOf);
        assert lengthOf(cs[w]) == Best(cs, lengthOf);
      }
    }
  }

  /** Whether the candidate at position `j` of `cs` is logged: it strictly beats the record kept so far. */
  predicate Improves<K>(cs: seq<K>, lengthOf: K -> nat, j: nat)
    requires j < |cs|
  {
    lengthOf(cs[j]) > Best(cs[..j], lengthOf)
  }

  /** Event `e` is the one logged for the candidate at position `j` of `cs`. */
  ghost predicate LoggedAt<K>(cs: seq<K>, lengthOf: K -> nat, e: NewRecord<K>, j: nat) {
    j < |cs| && e == NewRecord(cs[j], lengthOf(cs[j])) && Improves(cs, lengthOf, j)
  }

  /** The events logged while scanning `cs`, oldest first. */
  function Log<K>(cs: seq<K>, lengthOf: K -> nat): seq<NewRecord<K>>
    decreases |cs|
  {
    if |cs| == 0 then []
    else
      var init, last := cs[..|cs| - 1], cs[|cs| - 1];
      Log(init, lengthOf) + (if lengthOf(last) > Best(init, lengthOf) then [NewRecord(last, lengthOf(last))] else [])
  }

  /**
   * The logged lengths strictly increase and never exceed the record; the log
   * is empty exactly when the record stayed at 0, and otherwise its last event
   * carries the final record.
   */
  lemma {:induction false} LogLengths<K>(cs: seq<K>, lengthOf: K -> nat)
    ensures var log := Log(cs, lengthOf);
      && (|log| == 0 <==> Best(cs, lengthOf) == 0)
      && (|log| > 0 ==> log[|log| - 1].length == Best(cs, lengthOf))
      && (forall a, b :: 0 <= a < b < |log| ==> log[a].length < log[b].length)
      && (forall t :: 0 <= t < |log| ==> log[t].length <= Best(cs, lengthOf))
    decreases |cs|
  {
    if |cs| > 0 {
      LogLengths(cs[..|cs| - 1], lengthOf);
    }
  }

  /** Scanning one more candidate `c` after `cs`: the loop body of the searches. */
  lemma ScanOne<K>(cs: seq<K>, c: K, lengthOf: K -> nat)
    ensures lengthOf(c) > Best(cs, lengthOf) ==> Best(cs + [c], lengthOf) == lengthOf(c)
    ensures lengthOf(c) > Best(cs, lengthOf) ==> Log(cs + [c], lengthOf) == Log(cs, lengthOf) + [NewRecord(c, lengthOf(c))]
    ensures lengthOf(c) <= Best(cs, lengthOf) ==> Best(cs + [c], lengthOf) == Best(cs, lengthOf)
    ensures lengthOf(c) <= Best(cs, lengthOf) ==> Log(cs + [c], lengthOf) == Log(cs, lengthOf)
  {
    var next := cs + [c];
    assert next[..|next| - 1] == cs;
  }

  /**
   * The record only grows: scanning a longer prefix of the candidates never
   * lowers it, starting from 0 before any candidate.
   */
  lemma BestMonotone<K>(cs: seq<K>, lengthOf: K -> nat, i: nat, j: nat)
    requires i <= j <= |cs|
    ensures Best(cs[..0], lengthOf) == 0
    ensures Best(cs[..i], lengthOf) <= Best(cs[..j], lengthOf)
  {
    var b := Best(cs[..i], lengthOf);
    BestIsMax(cs[..i], lengthOf);
    BestIsMax(cs[..j], lengthOf);
    if b != 0 {
      var w :| 0 <= w < i && lengthOf(cs[..i][w]) == b;
      assert cs[..i][w] == cs[..j][w];
    }
  }

  /**
   * A candidate improves on the record exactly when its length is positive and
   * strictly above the length of every earlier candidate: ties and lower
   * lengths are never logged, so the first candidate to reach a length wins.
   */
  lemma ImprovesIff<K>(cs: seq<K>, lengthOf: K -> nat, j: nat)
    requires j < |cs|
    ensures Improves(cs, lengthOf, j) <==> lengthOf(cs[j]) > 0 && forall i :: 0 <= i < j ==> lengthOf(cs[i]) < lengthOf(cs[j])
  {
    var prefix := cs[..j];
    assert forall i :: 0 <= i < j ==> prefix[i] == cs[i];
    BestIsMax(prefix, lengthOf);
    var b := Best(prefix, lengthOf);
    if b != 0 {
      var w :| 0 <= w < j && lengthOf(prefix[w]) == b;
      assert lengthOf(cs[w]) == b;
    }
  }

  /** Scanning one more candidate appends its event exactly when it improves on the record. */
  lemma LogStep<K>(cs: seq<K>, lengthOf: K -> nat, j: nat)
    requires j < |cs|
    ensures Improves(cs, lengthOf, j) ==> Log(cs[..j + 1], lengthOf) == Log(cs[..j], lengthOf) + [NewRecord(cs[j], lengthOf(cs[j]))]
    ensures !Improves(cs, lengthOf, j) ==> Log(cs[..j + 1], lengthOf) == Log(cs[..j], lengthOf)
  {
    var p := cs[..j + 1];
    assert p[..|p| - 1] == cs[..j];
  }

  /**
   * The `t`-th logged event names a scanned candidate (at the returned
   * position `j`), carries that candidate's own length, and that candidate
   * strictly beats the record kept before it.
   */
  lemma {:induction false} LogSoundAt<K>(cs: seq<K>, lengthOf: K -> nat, t: nat) returns (j: nat)
    requires t < |Log(cs, lengthOf)|
    ensures LoggedAt(cs, lengthOf, Log(cs, lengthOf)[t], j)
    decreases |cs|
  {
    var n := |cs| - 1;
    var init := cs[..n];
    LogStep(cs, lengthOf, n);
    assert cs[..n + 1] == cs;
    if t < |Log(init, lengthOf)| {
      j := LogSoundAt(init, lengthOf, t);
      assert init[..j] == cs[..j];
      assert Log(cs, lengthOf)[t] == Log(init, lengthOf)[t];
    } else {
      j := n;
    }
  }

  /** Every candidate that improves on the record is logged. */
  lemma {:induction false} LogComplete<K>(cs: seq<K>, lengthOf: K -> nat, j: nat)
    requires j < |cs| && Improves(cs, lengthOf, j)
    ensures NewRecord(cs[j], lengthOf(cs[j])) in Log(cs, lengthOf)
    decreases |cs|
  {
    var n := |cs| - 1;
    LogStep(cs, lengthOf, n);
    assert cs[..n + 1] == cs;
    if j < n {
      var init := cs[..n];
      assert init[..j] == cs[..j];
      LogComplete(init, lengthOf, j);
    }
  }

  /**
   * When the candidates are scanned in increasing order under `before`, the
   * logged events come in that order too.
   */
  lemma LogOrdered<K>(cs: seq<K>, lengthOf: K -> nat, before: (K, K) -> bool)
    requires forall i, j :: 0 <= i < j < |cs| ==> before(cs[i], cs[j])
    ensures forall a, b :: 0 <= a < b < |Log(cs, lengthOf)| ==> before(Log(cs, lengthOf)[a].candidate, Log(cs, lengthOf)[b].candidate)
  {
    var log := Log(cs, lengthOf);
    forall a, b | 0 <= a < b < |log|
      ensures before(log[a].candidate, log[b].candidate)
    {
      var i := LogSoundAt(cs, lengthOf, a);
      var j := LogSoundAt(cs, lengthOf, b);
      ImprovesIff(cs, lengthOf, i);
      ImprovesIff(cs, lengthOf, j);
      LogLengths(cs, lengthOf);
      assert log[a].length < log[b].length;
    }
  }
}

=== FILE: sequences_extensions.dfy ===
/**
 * The extension methods of the system: the prefix matcher
 * `MatchesUpToWith`, its batch form `Classify`, and the canonical FizzBuzz
 * iterator.
 */
module SequencesExtensions {
  import opened Enumerables
  import Int32
  import Decimal

  // ---------------------------------------------------------------------------
  // MatchesUpToWith
  // ---------------------------------------------------------------------------

  /**
   * `n` is the length of the longest prefix on which `sequence` agrees with
   * `reference`: every position below `n` agrees, and `n` is either the end of
   * `sequence` or a position where the reference has a different element.
   */
  ghost predicate IsMatchLength<T>(sequence: seq<T>, reference: Reference<T>, n: nat) {
    && n <= |sequence|
    && (forall i :: 0 <= i < n ==> reference.Has(i) && sequence[i] == reference.At(i))
    && (n < |sequence| ==> reference.Has(n) && sequence[n] != reference.At(n))
  }

  /**
   * The case where `ElementAt` throws: the reference is a list shorter than
   * `sequence` that `sequence` matches to its very end, so the matcher asks
   * for the element just past it.
   */
  ghost predicate Overruns<T>(sequence: seq<T>, reference: Reference<T>) {
    && reference.Materialized?
    && |reference.items| < |sequence|
    && forall i :: 0 <= i < |reference.items| ==> sequence[i] == reference.items[i]
  }

  /**
   * `TakeWhile((item, index) => item == reference.ElementAt(index)).Count()`,
   * resumed at `index` after the first `index` items matched.
   */
  function CountMatching<T(==)>(sequence: seq<T>, reference: Reference<T>, index: nat): (r: Result<nat>)
    requires index <= |sequence|
    requires forall i :: 0 <= i < index ==> reference.Has(i) && sequence[i] == reference.At(i)
    ensures r.Failure? <==> Overruns(sequence, reference)
    ensures r.Failure? ==> r.error == ArgumentOutOfRange
    ensures r.Success? ==> index <= r.value && IsMatchLength(sequence, reference, r.value)
    decreases |sequence| - index
  {
    assert index > 0 ==> reference.Has(index - 1);
    if index == |sequence| then
      Success(index)
    else
      match reference.ElementAt(index)
      case Failure(e) =>
        assert reference.Materialized? && |reference.items| == index;
        assert forall i :: 0 <= i < index ==> reference.At(i) == reference.items[i];
        Failure(e)
      case Success(x) =>
        if sequence[index] == x then CountMatching(sequence, reference, index + 1) else Success(index)
  }

  /**
   * `sequence.MatchesUpToWith(reference)`: the number of leading positions on
   * which the finite `sequence` agrees with `reference`. It throws
   * `ArgumentOutOfRange` exactly when a materialized reference runs out before
   * the first mismatch.
   */
  function MatchesUpToWith<T(==)>(sequence: seq<T>, reference: Reference<T>): (r: Result<nat>)
    ensures r.Failure? <==> Overruns(sequence, reference)
    ensures r.Failure? ==> r.error == ArgumentOutOfRange
    ensures r.Success? ==> IsMatchLength(sequence, reference, r.value)
  {
    CountMatching(sequence, reference, 0)
  }

  /** The match length is determined by its characterization. */
  lemma MatchLengthUnique<T>(sequence: seq<T>, reference: Reference<T>, m: nat, n: nat)
    requires IsMatchLength(sequence, reference, m)
    requires IsMatchLength(sequence, reference, n)
    ensures m == n
  {
  }

  /** An empty sequence matches nothing, whatever the reference. */
  lemma EmptyMatchesNothing<T>(reference: Reference<T>)
    ensures MatchesUpToWith([], reference) == Success(0)
  {
  }

  /** A sequence matched against itself as a list matches in full. */
  lemma MatchesItself<T>(sequence: seq<T>)
    ensures MatchesUpToWith(sequence, Materialized(sequence)) == Success(|sequence|)
  {
  }

  /** A lazy reference never runs out, so matching against it never throws. */
  lemma LazyNeverThrows<T>(sequence: seq<T>, at: nat -> T)
    ensures MatchesUpToWith(sequence, Lazy(at)).Success?
  {
  }

  function Min(a: nat, b: nat): nat {
    if a <= b then a else b
  }

  /**
   * The matcher reads a lazy reference only at the positions it probes, up to
   * index `min(r, |sequence| - 1)` for a result `r`: a list holding just those
   * elements gives the same answer. So an unbounded reference is never
   * materialized.
   */
  lemma MatchReadsOnlyProbedPrefix<T>(sequence: seq<T>, at: nat -> T, items: seq<T>)
    requires MatchesUpToWith(sequence, Lazy(at)).Success?
    requires var probed := Min(MatchesUpToWith(sequence, Lazy(at)).value + 1, |sequence|);
             probed <= |items| && forall i :: 0 <= i < probed ==> items[i] == at(i)
    ensures MatchesUpToWith(sequence, Materialized(items)) == MatchesUpToWith(sequence, Lazy(at))
  {
  }

  // ---------------------------------------------------------------------------
  // Classify
  // ---------------------------------------------------------------------------

  /** A set without elements is the empty set. */
  lemma EmptyWithoutElements(keys: set<int>)
    requires forall key :: key !in keys
    ensures keys == {}
  {
    assert forall key :: key in keys <==> key in {};
  }

  /** A non-empty key set has a key to enumerate next. */
  lemma HasKey(keys: set<int>)
    requires keys != {}
    ensures exists key :: key in keys
  {
    if forall key :: key !in keys {
      EmptyWithoutElements(keys);
    }
  }

  /**
   * `collections.Classify(reference)`: folds over the dictionary, adding each
   * key with the match length of its list. The enumeration order of the
   * dictionary is not observable: every key is added once, and the first
   * throwing entry aborts the whole fold with the same exception.
   */
  method Classify(collections: map<int, seq<int>>, reference: Reference<int>) returns (r: Result<map<int, nat>>)
    ensures r.Success? <==> forall key :: key in collections ==> MatchesUpToWith(collections[key], reference).Success?
    ensures r.Failure? ==> r.error == ArgumentOutOfRange
    ensures r.Success? ==> r.value.Keys == collections.Keys
    ensures r.Success? ==> forall key :: key in r.value ==> Success(r.value[key]) == MatchesUpToWith(collections[key], reference)
  {
    var acc: map<int, nat> := map[];
    var pending := collections.Keys;
    while pending != {}
      invariant pending <= collections.Keys
      invariant acc.Keys == collections.Keys - pending
      invariant forall key :: key in acc ==> Success(acc[key]) == MatchesUpToWith(collections[key], reference)
      decreases pending
    {
      HasKey(pending);
      var key :| key in pending;
      assert key !in acc;  // Dictionary.Add would throw on a duplicate key
      var length := MatchesUpToWith(collections[key], reference);
      if length.Failure? {
        return Failure(length.error);
      }
      acc := acc[key := length.value];
      pending := pending - {key};
    }
    return Success(acc);
  }

  // ---------------------------------------------------------------------------
  // FizzBuzz
  // ---------------------------------------------------------------------------

  /**
   * The value yielded for counter value `i`. C# `%` truncates toward zero where
   * Dafny's is Euclidean, but the two agree on whether the remainder is zero,
   * which is all the conditions look at.
   */
  function FizzBuzzWord(i: int): string {
    if i % 15 == 0 then "fizz buzz"
    else if i % 3 == 0 then "fizz"
    else if i % 5 == 0 then "buzz"
    else Decimal.IntToString(i)
  }

  /**
   * The word for position `i` follows the FizzBuzz rule stated through 3 and 5
   * alone: "fizz buzz" for multiples of both, "fizz" and "buzz" for multiples
   * of just one, and otherwise the decimal text of `i`, which reads back as
   * `i` and so never collides with the three words.
   */
  lemma FizzBuzzWordRule(i: int)
    ensures FizzBuzzWord(i) == "fizz buzz" <==> i % 3 == 0 && i % 5 == 0
    ensures FizzBuzzWord(i) == "fizz" <==> i % 3 == 0 && i % 5 != 0
    ensures FizzBuzzWord(i) == "buzz" <==> i % 3 != 0 && i % 5 == 0
    ensures i >= 0 && i % 3 != 0 && i % 5 != 0 ==> Decimal.Parse(FizzBuzzWord(i)) == Decimal.Some(i)
    ensures i < 0 && i % 3 != 0 && i % 5 != 0 ==> FizzBuzzWord(i)[0] == '-'
  {
    MultipleOf15(i);
    var w := FizzBuzzWord(i);
    if i % 3 != 0 && i % 5 != 0 {
      assert w[0] != 'f' && w[0] != 'b';
      if i >= 0 {
        Decimal.ParseNatToString(i);
      }
    }
  }

  /** The multiples of 15 are the common multiples of 3 and 5. */
  lemma MultipleOf15(i: int)
    ensures i % 15 == 0 <==> i % 3 == 0 && i % 5 == 0
  {
    var q, r := i / 15, i % 15;
    assert i == 15 * q + r;
    assert i % 3 == r % 3 by {
      assert i == 3 * (5 * q) + r;
    }
    assert i % 5 == r % 5 by {
      assert i == 5 * (3 * q) + r;
    }
  }

  /** One resumption of `FizzBuzz()`: unchecked `i++`, then yield the word for the new `i`. */
  function FizzBuzzStep(i: int): (string, int) {
    var j := Int32.Wrap(i + 1);
    (FizzBuzzWord(j), j)
  }

  /** Each resumption of `FizzBuzz()` advances its counter by an unchecked `++` and yields the word for the new value. */
  lemma FizzBuzzStepIncrements()
    ensures forall i :: FizzBuzzStep(i) == (FizzBuzzWord(Int32.Wrap(i + 1)), Int32.Wrap(i + 1))
  {
  }

  /** `SequencesExtensions.FizzBuzz()` as written: its counter is a C# `int` starting at 0. */
  function FizzBuzz(): Generator<int, string> {
    Generator(0, FizzBuzzStep)
  }

  /**
   * An iterator whose counter advances by an unchecked `++` holds, after `k`
   * resumptions from an in-range `s`, the counter `s + k` wrapped into an `int`.
   */
  lemma {:induction false} WrappingRun<T>(next: int -> (T, int), s: int, k: nat)
    requires forall i :: next(i).1 == Int32.Wrap(i + 1)
    requires Int32.InRange(s)
    ensures Run(next, s, k) == Int32.Wrap(s + k)
    decreases k
  {
    if k > 0 {
      WrappingRun(next, next(s).1, k - 1);
      Int32.WrapAdd(s + 1, k - 1);
    }
  }

  /**
   * An iterator that starts its counter at 0, advances it by an unchecked
   * `++` and yields `word` of the new value, yields at index `k` the word
   * for `k + 1` wrapped into an `int`.
   */
  lemma WrappingElementAt<T>(next: int -> (T, int), word: int -> T, k: nat)
    requires forall i :: next(i) == (word(Int32.Wrap(i + 1)), Int32.Wrap(i + 1))
    ensures ElementAt(Generator(0, next), k) == word(Int32.Wrap(k + 1))
  {
    WrappingRun(next, 0, k);
    Int32.WrapAdd(k, 1);
  }

  /**
   * At every 0-based index `k`, `FizzBuzz()` yields the word for the counter
   * value `k + 1` as an `int` computes it: the 1-based position itself below
   * `int.MaxValue`, then `int.MinValue`, `int.MinValue + 1`, ..., repeating
   * every 2^32 items.
   */
  lemma FizzBuzzAt(k: nat)
    ensures ElementAt(FizzBuzz(), k) == FizzBuzzWord(Int32.Wrap(k + 1))
    ensures k < Int32.MaxValue ==> ElementAt(FizzBuzz(), k) == FizzBuzzWord(k + 1)
  {
    FizzBuzzStepIncrements();
    WrappingElementAt(FizzBuzzStep, FizzBuzzWord, k);
  }

  /**
   * Past `int.MaxValue` the counter wraps: the next value yielded is the text
   * of `int.MinValue`, not of the position 2147483648.
   */
  lemma FizzBuzzOverflows()
    ensures ElementAt(FizzBuzz(), Int32.MaxValue)[0] == '-'
    ensures ElementAt(FizzBuzz(), Int32.MaxValue) != FizzBuzzWord(Int32.MaxValue + 1)
  {
    FizzBuzzAt(Int32.MaxValue);
    Int32.IncrementWraps(Int32.MaxValue);
    NoFizzBuzzAtTwoToThe31();
  }

  /** 2^31 is a multiple of neither 3 nor 5, so both it and its negation are printed as numbers. */
  lemma NoFizzBuzzAtTwoToThe31()
    ensures FizzBuzzWord(Int32.MinValue)[0] == '-'
    ensures FizzBuzzWord(Int32.MaxValue + 1)[0] != '-'
  {
    assert Int32.MinValue % 3 != 0 && Int32.MinValue % 5 != 0;
    assert (Int32.MaxValue + 1) % 3 != 0 && (Int32.MaxValue + 1) % 5 != 0;
    FizzBuzzWordRule(Int32.MinValue);
    FizzBuzzWordRule(Int32.MaxValue + 1);
  }

  /** One resumption of the FizzBuzz iterator with an unbounded counter. */
  function FizzBuzzUnboundedStep(i: nat): (string, nat) {
    (FizzBuzzWord(i + 1), i + 1)
  }

  /** The FizzBuzz iterator with the overflow corrected: the counter never wraps. */
  function FizzBuzzUnbounded(): Generator<nat, string> {
    Generator(0, FizzBuzzUnboundedStep)
  }

  lemma {:induction false} FizzBuzzUnboundedCounter(s: nat, k: nat)
    ensures Run(FizzBuzzUnboundedStep, s, k) == s + k
    decreases k
  {
    if k > 0 {
      FizzBuzzUnboundedCounter(s + 1, k - 1);
    }
  }

  /** At every index `k` the corrected iterator yields the word for position `k + 1`. */
  lemma FizzBuzzUnboundedAt(k: nat)
    ensures ElementAt(FizzBuzzUnbounded(), k) == FizzBuzzWord(k + 1)
  {
    FizzBuzzUnboundedCounter(0, k);
  }

  /** Both iterators agree wherever the C# counter has not wrapped. */
  lemma FizzBuzzAgreesBelowOverflow(k: nat)
    requires k < Int32.MaxValue
    ensures ElementAt(FizzBuzz(), k) == ElementAt(FizzBuzzUnbounded(), k)
  {
    FizzBuzzAt(k);
    FizzBuzzUnboundedAt(k);
  }
}
